=== FILE: README.md ===
# Posts and users service: a Dafny model of its two controllers

The service stores posts and users in a relational store and exposes
create/read/update/delete operations on posts and create/lookup/list/ban
operations on users. Its logic lives in two controllers:
`app/controllers/post_controller.py` and `app/controllers/user_controller.py`.
This project models both as pure functions over an immutable store and
proves what they guarantee.

- `wrappers.dfy` (`Wrappers`): `Option`, standing for SQL NULL and for model
  fields that default to `None`.
- `models.dfy` (`Models`): `Post`, `User`, `UserIdAndUsername` and the
  `{"message": ...}` acknowledgement, mirroring `app/models/post.py` and
  `app/models/user.py`.
- `database.dfy` (`Database`): the store.
  - `posts` maps a post id to its title, content and creation time.
  - `postUser` holds the ownership links.
  - `users` maps a user id to its username, email, password and `disabled` flag.
  - `userRoles` holds the role rows in insertion order.
  - `roles` is the catalog, mapping a role id to its name.
  - Two serial counters hand out new ids.
  - `Valid` is the invariant that every write keeps.
- `post_controller.dfy` and `post_properties.dfy`: the post operations, and
  lemmas that relate them to each other.
- `user_controller.dfy` and `user_properties.dfy`: the same for users.

## How the model reads the source

- Every controller function is a function of the store. A write returns a
  `Step`, which holds the outcome and the store left behind. A read returns only
  an `Outcome`, so it cannot change the store.
- An outcome is `Ok(value)` or `Err(failure)`. The failures are:
  - `Forbidden`: the ownership gate refused (HTTP 401).
  - `NotFound`: no matching row (HTTP 404).
  - `StoreError`: a store statement raised (HTTP 500).
  - `ValidationError`: a NULL reached an `int` field of a response model (HTTP 500).
- A failing store statement is an input, not a behaviour. Each call takes a
  `Fault`: either `Healthy`, or `FailAt(k)`, meaning that the k-th statement of
  that call raises (counting from 0). This covers the post controller's
  `try`/`except` blocks. It also covers the user controller, which catches
  nothing. There, the writes made before the failing statement stay in the
  store.
- `created_at` is a natural number: the store clock for stored rows (`dbNow`)
  and the application clock for the response of `create_post` (`appNow`). The
  two are separate parameters, because the source reads two different clocks.
  The fixed date of the placeholder post is kept as a literal string.
- `ORDER BY created_at DESC` has no tie-break in the source. The model
  therefore picks an arbitrary newest post with Dafny's `:|`, and no contract
  or lemma depends on which post is picked. The same applies to "the first
  row" of a `fetch_row`, and to the row order of `find_all_users`, whose query
  has no `ORDER BY`.
- `array_agg` has no `ORDER BY`, so SQL leaves the order of a user's role
  names open. The model has to pick one, and it uses the order in which the
  `user_roles` rows were inserted. Only `RoleNamesAppend` uses that order,
  and it is a fact about the model's own aggregation. Every lemma about the
  roles a lookup returns compares them as multisets, either directly or with
  `SameUpToRoleOrder`.
- `get_role_id` returns NULL for a role name that is not in the catalog. The
  model inserts that row with a NULL role id, and such a row joins nothing, so
  the role is skipped silently. If the schema forbade NULL, that insert would be
  a failing statement, and `FailAt` models that case.
- A duplicate serial key is a failing insert. The model also assumes that
  `username` carries a UNIQUE constraint, so a duplicate username is a failing
  insert too. As in PostgreSQL, the serial default draws its value before the
  constraints are checked, and that value is not given back: a refused insert
  still advances the counter. A statement 0 that raises for any other reason
  (the `Fault` input) is taken to raise before the value is drawn. The schema is not part of this model (see `UserController.CreateUser`
  under "Left out").
- User and role ids are `nat`, since they come from serial columns. Post ids are
  `int`, because the route's path parameter can be any integer.
- The model follows the code as written:
  - `ban_user_by_username` reports success even when no user matches.
  - `create_user` raises no error for an unknown role name.
  - `create_post` is two separate inserts, not one transaction.
  - An ownership violation returns 401.
  - An update or delete of a post id that was never created answers 401, not
    404, because no ownership link exists for it. Only a post that existed and
    was deleted answers 404, because its link stays.
- Scopes: the post routes that write require "User". Every route in
  `app/routers/user_router.py` requires "Admin".

## Model

| member | source | states |
|---|---|---|
| `PostController.IsPostOwner` | app/controllers/post_controller.py:145-154 | true iff some ownership link carries both the post id and the user id; absence is `false`, and only a failing query is an error (500) |
| `PostController.UpdateTitleContent` | app/controllers/post_controller.py:101-104 | the UPDATE touches at most one row, exactly one iff the post id has a row; it then rewrites only that row's title and content, otherwise it changes nothing |
| `PostController.DeleteRow` | app/controllers/post_controller.py:126-129 | the DELETE touches at most one row, exactly one iff the post id has a row; only that `posts` row disappears, and links and other tables stay |
| `PostController.UpdatePost` | app/controllers/post_controller.py:94-116 | Forbidden iff the gate query succeeds and the caller has no ownership link; a failing gate gets 500, and so does an owner whose UPDATE fails; all of these come before any write; an owner gets NotFound iff the post has no row; success iff exactly one row was affected, and it returns the caller's post unchanged after rewriting only title and content; every failure leaves the store unchanged |
| `PostController.DeletePost` | app/controllers/post_controller.py:119-141 | the same gate as update: Forbidden iff the gate query succeeds and the caller has no link, 500 when the gate fails or an owner's DELETE fails; an owner gets NotFound iff the post has no row; on success it returns the "Post deleted" ack and the store loses exactly that post row; every failure leaves the store unchanged |
| `PostController.CreatePost` | app/controllers/post_controller.py:17-38 | a raising first statement leaves the store unchanged; an insert refused for a taken id changes nothing but uses up the serial value; once the insert goes through, the post row with the request's title and content and the store clock is there whatever happens next; the link is written only after the post row; the post id is the fresh serial value; the response carries the request's title and content, the acting user's id and name, and the application clock; users and roles are untouched |
| `PostController.NewestExists` | app/controllers/post_controller.py:58-62 | every non-empty set of posts has an element whose created_at is not older than any other's, so `LIMIT 1` of the newest-first query is well defined |
| `PostController.SortNewestFirst` | app/controllers/post_controller.py:43-45 | the arrangement holds each given post exactly once and is ordered by created_at non-increasing; the tie-break is left open |
| `PostController.FindAllPosts` | app/controllers/post_controller.py:42-53 | exactly the posts that have a link to an existing user, each once, newest first; `[]` when there are none; 500 when the query fails |
| `PostController.FindOnePost` | app/controllers/post_controller.py:56-71 | a joined post with maximal created_at; the fixed placeholder post (id 0, user 0, "Mike") when no post joins; 500 when the query fails |
| `PostController.FindPostById` | app/controllers/post_controller.py:74-91 | the joined row of that post id; NotFound iff no post row with that id links to an existing user; 500 when the query fails |
| `PostProperties.OnlyLinkOfFreshPost` | app/controllers/post_controller.py:17-38 | in a valid store, a successful create_post leaves exactly one ownership link for the new post id, the one to the acting user |
| `PostProperties.ConflictUsesUpPostId` | app/controllers/post_controller.py:18-23 | when the serial lags behind a taken post id, create_post fails with 500 once, and the next create_post succeeds with the following id |
| `PostProperties.FindOwnedPost` | app/controllers/post_controller.py:75-79 | when a post has a single owner link to an existing user, lookup by id returns that joined row |
| `PostProperties.CreateThenFindById` | app/controllers/post_controller.py:17-38 | a successful create followed by lookup of the new id returns the create's response, except that created_at is the store clock |
| `PostProperties.UpdateThenFindById` | app/controllers/post_controller.py:94-105 | after an owner's update, lookup by id shows the new title and content with the owner and created_at unchanged |
| `PostProperties.DeleteThenDeleteAgain` | app/controllers/post_controller.py:119-136 | after a delete the ownership link remains, the post no longer reads, and a second delete or an update by the same owner passes the gate and gets NotFound without changes, whatever post the update carries |
| `PostProperties.MissingPostIsNotFound` | app/controllers/post_controller.py:94-136 | an owner's update or delete of a post id without a `posts` row is NotFound and changes nothing, and so is the lookup |
| `PostProperties.PostLifecycle` | app/controllers/post_controller.py:17-141 | create by the owner succeeds; update and delete by anyone else are Forbidden with the store unchanged; the owner's update returns the new post; the owner's delete acks; then lookup is NotFound |
| `PostProperties.NonOwnerGets401` | app/controllers/post_controller.py:94-141 | a caller without an ownership link gets a failure with status 401 from update and from delete, and the store is unchanged |
| `PostProperties.NeverCreatedPostIsForbidden` | app/controllers/post_controller.py:74-141 | in a valid store, an update or delete of a post id at or above the serial is Forbidden (401) for every caller, not NotFound, and the lookup is NotFound |
| `PostProperties.CreatePostKeepsValid` | app/controllers/post_controller.py:17-38 | every outcome of create, including a partial one, keeps the store invariant (serials above ids in use, one owner per post id, unique usernames) |
| `PostProperties.WritesKeepValid` | app/controllers/post_controller.py:94-141 | every outcome of update and delete keeps the store invariant |
| `PostProperties.CreateIsNotAtomic` | app/controllers/post_controller.py:18-34 | when the link insert fails after the post insert, the error is 500, the post row stays with no owner link, no read can see it, and its id is used up |
| `PostProperties.ListingStrictlyNewestFirst` | app/controllers/post_controller.py:43-48 | when joined posts have pairwise distinct created_at, the listing is strictly descending |
| `PostProperties.OneIsAsNewAsFirstOfAll` | app/controllers/post_controller.py:56-62 | when posts exist, the single post is exactly as new as the head of the full listing |
| `UserController.RoleNamesOf` | app/controllers/user_controller.py:31-48 | a name is aggregated iff it is the catalog name of one of that user's role rows whose role id is in the catalog; so the list is non-empty iff such a row exists |
| `UserController.FindUser` | app/controllers/user_controller.py:29-62 | None iff no user with at least one role matches the key; otherwise a matching user with `name` equal to its username, its stored password and disabled flag, and its aggregated roles |
| `UserController.FindUserByUsername` | app/controllers/user_controller.py:29-62 | a failing query is a store error (500); None iff no user with a role has that username, including a user without roles; otherwise the user has that username, `name` equal to it, a non-empty role list, and the stored fields |
| `UserController.FindUserByEmail` | app/controllers/user_controller.py:66-99 | the same as the username lookup, selecting on email; a failing query is a store error (500) |
| `UserController.RoleIdOf` | app/controllers/user_controller.py:103-109 | a role id iff the catalog holds the name, and then the id's name is that name; NULL otherwise |
| `UserController.GetRoleId` | app/controllers/user_controller.py:103-109 | the role lookup, with a failing query as a store error |
| `UserController.GetUserId` | app/controllers/user_controller.py:112-118 | a failing query is a store error (500); otherwise the result pairs the argument username with a stored id of that username, and with no such user it is a validation error (the NULL id fails the `int` field) |
| `UserController.AssignRoles` | app/controllers/user_controller.py:22-24 | one role row per name, inserted in list order, each with the looked-up id; on a failure, exactly the rows of the names before the failing statement are written |
| `UserController.CreateUser` | app/controllers/user_controller.py:10-25 | a raising first statement changes nothing; an insert refused for a taken id or username changes nothing but uses up the serial value; otherwise, whatever happens later, one user row with the given fields and disabled flag is inserted under the fresh id, followed by exactly the role rows of the names handled before any failure, in list order; returns the fixed message iff no statement failed; posts and the catalog are untouched |
| `UserController.Enumerate` | app/controllers/user_controller.py:124-138 | the users of the grouped query are listed each exactly once, in an order that is left open |
| `UserController.RedactedViewsComplete` | app/controllers/user_controller.py:122-155 | listing the redacted views of an enumeration of a set of users includes every user of the set |
| `UserController.RedactedViewsSound` | app/controllers/user_controller.py:122-155 | every entry of that listing is the redacted view of some user of the set |
| `UserController.FindAllUsers` | app/controllers/user_controller.py:122-155 | one user per user that has a role, each once; every password is the literal "Placeholder"; each entry is that user's redacted view |
| `UserController.BanUserByUsername` | app/controllers/user_controller.py:158-164 | every user with that username gets disabled = true and keeps all other fields; other users and tables are unchanged; the success message is returned whenever the statement runs |
| `UserProperties.Resolvable` | app/controllers/user_controller.py:22-24 | the requested role names the catalog holds, each exactly as often as it was requested; other names are dropped |
| `UserProperties.RoleNamesAppend` | app/controllers/user_controller.py:31-48 | in the model's insertion-order aggregation, a table with rows appended aggregates to the old names followed by the names of the new rows |
| `UserProperties.RoleRowsAggregate` | app/controllers/user_controller.py:22-48 | the rows create_user inserts aggregate back to the resolvable role names, each as often as requested, in no promised order |
| `UserProperties.OtherRowsAddNoRoles` | app/controllers/user_controller.py:31-48 | role rows of other users appended to the table leave a user's aggregated roles unchanged as a multiset |
| `UserProperties.FreshUserHasNoRoles` | app/controllers/user_controller.py:13-17 | in a valid store, the next serial user id has no role rows yet |
| `UserProperties.CreatedRoles` | app/controllers/user_controller.py:10-25 | after create_user, the new user's roles are the resolvable names as a multiset, and every other user's roles are unchanged as a multiset |
| `UserProperties.CreateUserSucceeds` | app/controllers/user_controller.py:10-25 | in a valid store, create_user for a free username succeeds with the fixed message, inserts the user row under the serial id with all its role rows, and leaves a valid store |
| `UserProperties.CreatedIsGrouped` | app/controllers/user_controller.py:10-62 | a user created with at least one known role appears in the grouped join of the lookups |
| `UserProperties.CreateUserKeepsValid` | app/controllers/user_controller.py:10-25 | every outcome of create_user, including a partial one, keeps the store invariant |
| `UserProperties.FindUniqueUsername` | app/controllers/user_controller.py:29-62 | with unique usernames, the lookup of a user with a role returns exactly that user |
| `UserProperties.CreateThenFindByUsername` | app/controllers/user_controller.py:10-62 | create_user with at least one known role, followed by lookup of the username, returns the request's fields with `name` set to the username and the resolvable roles in some order; get_user_id returns the new id |
| `UserProperties.EmailLookupAgreesWithUsername` | app/controllers/user_controller.py:29-99 | with unique usernames, a user with a role whose email no other such user shares is found by email, and the email lookup equals the username lookup |
| `UserProperties.CreateThenFindByEmail` | app/controllers/user_controller.py:10-99 | create_user with a fresh email and a known role, followed by lookup of the email, finds a user, the same one the username lookup finds |
| `UserProperties.CreateUserIsNotAtomic` | app/controllers/user_controller.py:10-25 | when a statement of the role loop fails, the error is 500, the user row stays and get_user_id finds its id, exactly the role rows of the earlier names are there, and retrying the same request is refused by the username constraint |
| `UserProperties.ConflictUsesUpUserId` | app/controllers/user_controller.py:10-17 | a create_user refused for a taken username still uses up its id, so the next successful create_user gets the id after it |
| `UserProperties.CreateWithoutKnownRoleIsInvisible` | app/controllers/user_controller.py:10-62 | create_user with no known role succeeds and stores the user, and get_user_id finds it, but the username lookup answers None because of the inner join |
| `UserProperties.BanIsIdempotent` | app/controllers/user_controller.py:158-164 | a second ban of the same username succeeds and changes nothing |
| `UserProperties.BanWithoutMatchChangesNothing` | app/controllers/user_controller.py:158-164 | banning a username nobody has still returns the success message and leaves the store unchanged |
| `UserProperties.BanThenFindByUsername` | app/controllers/user_controller.py:158-164 | after a ban, the lookup of that user returns the same user with disabled = true, its roles possibly in another order |
| `UserProperties.BanKeepsValid` | app/controllers/user_controller.py:158-164 | a ban keeps the store invariant |
| `UserProperties.ListingIsRedactedLookup` | app/controllers/user_controller.py:122-155 | in a valid store, every listed user is the single lookup of its username with the password replaced, its roles possibly in another order |

## Left out

- Authorization: the token check (`verify_and_get_current_user_id`, `verify_token`) is not part of this model, and `app/routers/auth.py` is commented out in full. The acting user arrives as an already-resolved `UserIdAndUsername`, and the role scopes appear only as comments.
- Routing and response validation in `app/routers/post_router.py` and `app/routers/user_router.py`: these are framework wiring. A `None` from the user lookup is therefore modelled as `None`, not as whatever the response model makes of it.
- The `detail` strings of the HTTP errors: only the status is modelled, as the failure kind.
- SQL text and the async driver: each query is read as an operation on maps, sets and sequences. Failures of the driver are the `Fault` input.
- `strftime` rendering of timestamps: created_at stays an abstract number.
- Transactions, rollback and concurrency: every operation is one sequential step. Because no transaction exists, partial writes are modelled and proved.
- `create_post` assigns `post.post_id` to the caller's object before the link insert. That mutation is visible only when the call fails, and the route then discards the object, so it is not modelled.
- `NewUser` in `app/models/user.py`: no core operation uses it.
- `UserController.CreateUser`: the database schema is not part of this model. The model assumes a UNIQUE constraint on `users.username`, and under it a duplicate username is a failing insert (`StoreError`) that writes nothing. Without that constraint the source would insert a second user with the same name, and `UniqueUsernames` would not be an invariant.
- `PostController.UpdatePost`, `PostController.DeletePost`, `PostController.FindPostById`: the width of the integer id columns is not modelled. The driver refuses to bind a `post_id` outside the column's range, so such an id is a failing first statement. The model leaves that to the `Fault` input and does not derive it from the id. The same holds for user ids, which the model only draws from its own counter.
- `UserController.RoleNamesOf`: the model aggregates in insertion order, because some order has to be picked. The source promises no order, so the lemmas about lookup results compare roles only as multisets. `UserProperties.RoleNamesAppend` is the one lemma stated in that order, and only the multiset consequences of it are used.

## Notes for reading the contracts

- A contract that names `Valid` applies to stores reachable through the core's
  own writes. The store invariant lemmas show that every write keeps `Valid`.

=== FILE: database.dfy ===
/** The relational store the controllers talk to, read as plain values:
    each table is a map, a set or a sequence of rows, and the serial
    columns are counters. Failures of the driver are not data but a
    `Fault` chosen by the environment. */
module Database {
  import opened Wrappers

  type PostId = int
  type UserId = nat   // serial, never negative
  type RoleId = nat   // serial, never negative

  /** A row of `posts`; `createdAt` is the store clock (`NOW()`) at insertion. */
  datatype PostRow = PostRow(title: string, content: string, createdAt: nat)

  /** A row of `users`; `disabled` is nullable. */
  datatype UserRow = UserRow(username: string, email: string, password: string, disabled: Option<bool>)

  /** A row of `post_user`: the post `postId` is owned by the user `userId`. */
  datatype Link = Link(postId: PostId, userId: UserId)

  /** A row of `user_roles`; a role looked up by a name the catalog does
      not hold is inserted as NULL. */
  datatype UserRoleRow = UserRoleRow(userId: UserId, roleId: Option<RoleId>)

  datatype Store = Store(
    posts: map<PostId, PostRow>,
    postUser: set<Link>,
    users: map<UserId, UserRow>,
    userRoles: seq<UserRoleRow>,   // in insertion order
    roles: map<RoleId, string>,    // role_id to role_name
    nextPostId: PostId,            // next value of the posts serial
    nextUserId: UserId)            // next value of the users serial

  /** Which store statement, counted from 0 in execution order within one
      controller call, raises an exception; `Healthy` when none does. */
  datatype Fault = Healthy | FailAt(statement: nat)

  predicate Fails(fault: Fault, statement: nat) {
    fault == FailAt(statement)
  }

  /** The error outcomes of the controllers. `ValidationError` is the
      model-validation exception raised when a NULL reaches an `int` field. */
  datatype Failure = Forbidden | NotFound | StoreError | ValidationError

  /** The HTTP status each failure reaches the client with: ownership
      violations use 401, and uncaught exceptions become 500. */
  function StatusCode(f: Failure): nat {
    match f
    case Forbidden => 401
    case NotFound => 404
    case StoreError => 500
    case ValidationError => 500
  }

  datatype Outcome<+T> = Ok(value: T) | Err(failure: Failure)

  /** The outcome of a mutating operation together with the store it leaves. */
  datatype Step<+T> = Step(out: Outcome<T>, store: Store)

  ghost predicate UniqueUsernames(s: Store) {
    forall a, b :: a in s.users && b in s.users && s.users[a].username == s.users[b].username ==> a == b
  }

  ghost predicate OneOwnerPerPost(s: Store) {
    forall l, m :: l in s.postUser && m in s.postUser && l.postId == m.postId ==> l == m
  }

  /** The invariant every operation of the core keeps: serial counters lie
      above every id in use, usernames are unique and a post id is linked to
      at most one owner. */
  ghost predicate Valid(s: Store) {
    && (forall id :: id in s.posts ==> id < s.nextPostId)
    && (forall l :: l in s.postUser ==> l.postId < s.nextPostId)
    && (forall id :: id in s.users ==> id < s.nextUserId)
    && (forall r :: r in s.userRoles ==> r.userId < s.nextUserId)
    && UniqueUsernames(s)
    && OneOwnerPerPost(s)
  }
}

=== FILE: models.dfy ===
/** The request and response shapes of the service (app/models/post.py and
    app/models/user.py). They carry no behaviour; the controllers build and
    return them. A field that defaults to `None` becomes an `Option`. */
module Models {
  import opened Wrappers

  /** The `created_at` of a post as the API shows it. A timestamp read from
      the store or the application clock is kept abstract as `Stamp(time)`
      (its `strftime` rendering is not modelled); a literal string such as
      the placeholder's date is `Fixed(text)`. */
  datatype CreatedAt = Stamp(time: nat) | Fixed(text: string)

  /** `Post` of app/models/post.py. */
  datatype Post = Post(
    postId: Option<int>,
    title: string,
    content: string,
    userId: Option<int>,
    username: Option<string>,
    createdAt: Option<CreatedAt>)

  /** `User` of app/models/user.py; `roles` defaults to the empty list. */
  datatype User = User(
    username: string,
    password: string,
    email: string,
    name: Option<string>,
    roles: seq<string>,
    disabled: Option<bool>)

  /** `UserIdAndUsername` of app/models/user.py: the acting identity. */
  datatype UserIdAndUsername = UserIdAndUsername(userId: nat, username: string)

  /** The `{"message": ...}` acknowledgement some operations return. */
  datatype Ack = Ack(message: string)
}

=== FILE: post_controller.dfy ===
/** The post controller (app/controllers/post_controller.py). Every
    operation is a pure function of the store and a `Fault`; the mutating
    ones return the store they leave behind in a `Step`.

    The routes that call `CreatePost`, `UpdatePost` and `DeletePost`
    require the "User" scope; the three reads are public. Who the acting
    user is comes in as a `UserIdAndUsername` already resolved. */
module PostController {
  import opened Wrappers
  import opened Models
  import opened Database

  /** Returned by `FindOnePost` when no post joins an owner. */
  const PlaceholderPost: Post :=
    Post(Some(0), "Prendre soin de l'environement", "C'est important",
         Some(0), Some("Mike"), Some(Fixed("2023-12-08 1:00:00")))

  const PostDeleted: Ack := Ack("Post deleted")

  /** The status string of an `UPDATE` or `DELETE`, as a row count, and the
      store after it. */
  datatype Executed = Executed(affected: nat, store: Store)

  /** Ownership check: one `SELECT EXISTS` over `post_user`. */
  function IsPostOwner(s: Store, postId: PostId, userId: UserId, fault: Fault): (r: Outcome<bool>)
    ensures r.Err? <==> Fails(fault, 0)
    ensures r.Err? ==> r.failure == StoreError
    ensures r.Ok? ==> (r.value <==> exists l :: l in s.postUser && l.postId == postId && l.userId == userId)
  {
    if Fails(fault, 0) then Err(StoreError)
    else Ok(Link(postId, userId) in s.postUser)
  }

  /** `UPDATE posts SET title, content WHERE post_id`: `post_id` is the key,
      so at most one row is touched. */
  function UpdateTitleContent(s: Store, postId: PostId, title: string, content: string): (e: Executed)
    ensures e.affected <= 1
    ensures e.affected == 1 <==> postId in s.posts
    ensures e.affected == 0 ==> e.store == s
    ensures e.affected == 1 ==> RewroteOnly(s, e.store, postId, title, content)
  {
    if postId in s.posts then
      Executed(1, s.(posts := s.posts[postId := s.posts[postId].(title := title, content := content)]))
    else Executed(0, s)
  }

  /** `s'` differs from `s` only in the title and content of post `postId`,
      which are now `title` and `content`. */
  ghost predicate RewroteOnly(s: Store, s': Store, postId: PostId, title: string, content: string) {
    && s' == s.(posts := s'.posts)
    && postId in s.posts
    && s'.posts.Keys == s.posts.Keys
    && s'.posts[postId] == PostRow(title, content, s.posts[postId].createdAt)
    && forall id :: id in s.posts && id != postId ==> s'.posts[id] == s.posts[id]
  }

  /** `DELETE FROM posts WHERE post_id`: only the `posts` row goes; the
      `post_user` link stays. */
  function DeleteRow(s: Store, postId: PostId): (e: Executed)
    ensures e.affected <= 1
    ensures e.affected == 1 <==> postId in s.posts
    ensures e.store.posts.Keys == s.posts.Keys - {postId}
    ensures forall id :: id in e.store.posts ==> e.store.posts[id] == s.posts[id]
    ensures e.store == s.(posts := e.store.posts)
  {
    if postId in s.posts then Executed(1, s.(posts := s.posts - {postId}))
    else Executed(0, s)
  }

  /** `update_post`: the ownership gate (statement 0) runs before the write
      (statement 1); success needs exactly one affected row and answers with
      the caller's post as given. */
  function UpdatePost(s: Store, postId: PostId, post: Post, user: UserIdAndUsername, fault: Fault): (r: Step<Post>)
    ensures r.out.Err? ==> r.store == s
    ensures r.out == Err(Forbidden) <==> !Fails(fault, 0) && Link(postId, user.userId) !in s.postUser
    ensures Fails(fault, 0) ==> r.out == Err(StoreError)
    ensures !Fails(fault, 0) && Fails(fault, 1) && Link(postId, user.userId) in s.postUser ==> r.out == Err(StoreError)
    ensures r.out == Err(NotFound) <==>
              !Fails(fault, 0) && !Fails(fault, 1) && Link(postId, user.userId) in s.postUser && postId !in s.posts
    ensures r.out.Ok? <==>
              !Fails(fault, 0) && !Fails(fault, 1) && Link(postId, user.userId) in s.postUser && postId in s.posts
    ensures r.out.Ok? ==> r.out.value == post && RewroteOnly(s, r.store, postId, post.title, post.content)
  {
    match IsPostOwner(s, postId, user.userId, fault)
    case Err(f) => Step(Err(f), s)
    case Ok(isOwner) =>
      if !isOwner then Step(Err(Forbidden), s)
      else if Fails(fault, 1) then Step(Err(StoreError), s)
      else
        var e := UpdateTitleContent(s, postId, post.title, post.content);
        if e.affected == 1 then Step(Ok(post), e.store) else Step(Err(NotFound), e.store)
  }

  /** `delete_post`: the same gate, then a `DELETE` that must affect exactly
      one row; success answers with an acknowledgement. */
  function DeletePost(s: Store, postId: PostId, user: UserIdAndUsername, fault: Fault): (r: Step<Ack>)
    ensures r.out.Err? ==> r.store == s
    ensures r.out == Err(Forbidden) <==> !Fails(fault, 0) && Link(postId, user.userId) !in s.postUser
    ensures Fails(fault, 0) ==> r.out == Err(StoreError)
    ensures !Fails(fault, 0) && Fails(fault, 1) && Link(postId, user.userId) in s.postUser ==> r.out == Err(StoreError)
    ensures r.out == Err(NotFound) <==>
              !Fails(fault, 0) && !Fails(fault, 1) && Link(postId, user.userId) in s.postUser && postId !in s.posts
    ensures r.out.Ok? <==>
              !Fails(fault, 0) && !Fails(fault, 1) && Link(postId, user.userId) in s.postUser && postId in s.posts
    ensures r.out.Ok? ==> r.out.value == PostDeleted
    ensures r.out.Ok? ==> r.store == s.(posts := s.posts - {postId})
  {
    match IsPostOwner(s, postId, user.userId, fault)
    case Err(f) => Step(Err(f), s)
    case Ok(isOwner) =>
      if !isOwner then Step(Err(Forbidden), s)
      else if Fails(fault, 1) then Step(Err(StoreError), s)
      else
        var e := DeleteRow(s, postId);
        if e.affected == 1 then Step(Ok(PostDeleted), e.store) else Step(Err(NotFound), e.store)
  }

  /** `create_post`: statement 0 inserts the post row (its id from the
      serial, its `created_at` the store clock `dbNow`), statement 1 inserts
      the ownership link. An id that is already taken fails the insert, but
      the serial value it drew stays used up. The two are not one transaction: when statement 1
      raises, the post row stays without an owner. The response carries the
      acting user and the application clock `appNow`. */
  function CreatePost(s: Store, post: Post, user: UserIdAndUsername, dbNow: nat, appNow: nat, fault: Fault): (r: Step<Post>)
    ensures Fails(fault, 0) ==> r == Step(Err(StoreError), s)
    ensures !Fails(fault, 0) && s.nextPostId in s.posts ==>
              r == Step(Err(StoreError), s.(nextPostId := s.nextPostId + 1))
    ensures r.out.Err? ==> r.out.failure == StoreError && r.store.postUser == s.postUser
    ensures r.out.Ok? <==> !Fails(fault, 0) && !Fails(fault, 1) && s.nextPostId !in s.posts
    ensures r.store.users == s.users && r.store.userRoles == s.userRoles && r.store.roles == s.roles
    ensures r.store.nextUserId == s.nextUserId
    ensures !Fails(fault, 0) && s.nextPostId !in s.posts ==>
              && r.store.posts == s.posts[s.nextPostId := PostRow(post.title, post.content, dbNow)]
              && r.store.nextPostId == s.nextPostId + 1
    ensures r.out.Ok? ==>
              && r.out.value == Post(Some(s.nextPostId), post.title, post.content,
                                     Some(user.userId), Some(user.username), Some(Stamp(appNow)))
              && r.store.postUser == s.postUser + {Link(s.nextPostId, user.userId)}
  {
    if Fails(fault, 0) then Step(Err(StoreError), s)
    else if s.nextPostId in s.posts then Step(Err(StoreError), s.(nextPostId := s.nextPostId + 1))
    else
      var id := s.nextPostId;
      var s1 := s.(posts := s.posts[id := PostRow(post.title, post.content, dbNow)], nextPostId := id + 1);
      if Fails(fault, 1) then Step(Err(StoreError), s1)
      else
        Step(Ok(Post(Some(id), post.title, post.content, Some(user.userId), Some(user.username), Some(Stamp(appNow)))),
             s1.(postUser := s1.postUser + {Link(id, user.userId)}))
  }

  /** The post a joined row `posts JOIN post_user JOIN users` yields. */
  function RowPost(s: Store, l: Link): Post
    requires l.postId in s.posts && l.userId in s.users
  {
    var row := s.posts[l.postId];
    Post(Some(l.postId), row.title, row.content, Some(l.userId), Some(s.users[l.userId].username), Some(Stamp(row.createdAt)))
  }

  predicate Joins(s: Store, l: Link) {
    l in s.postUser && l.postId in s.posts && l.userId in s.users
  }

  /** Every post the three read queries can see: a post row with a link to
      an existing user. */
  ghost function JoinedPosts(s: Store): set<Post> {
    set l | l in s.postUser && Joins(s, l) :: RowPost(s, l)
  }

  /** The ordering key of `ORDER BY created_at DESC`. */
  function SortKey(p: Post): nat {
    match p.createdAt
    case Some(Stamp(t)) => t
    case _ => 0
  }

  ghost predicate IsNewest(p: Post, ps: set<Post>) {
    forall q :: q in ps ==> SortKey(q) <= SortKey(p)
  }

  lemma {:induction false} NewestExists(ps: set<Post>)
    requires ps != {}
    ensures exists top :: top in ps && IsNewest(top, ps)
    decreases ps
  {
    var x :| x in ps;
    if ps - {x} == {} {
      assert ps == {x};
      assert IsNewest(x, ps);
    } else {
      NewestExists(ps - {x});
      var y :| y in ps - {x} && IsNewest(y, ps - {x});
      if SortKey(x) <= SortKey(y) {
        assert IsNewest(y, ps);
      } else {
        assert IsNewest(x, ps);
      }
    }
  }

  /** Some newest-first arrangement of `ps`. Which of several posts with the
      same timestamp comes first is left open, as it is in the query. */
  ghost function SortNewestFirst(ps: set<Post>): (r: seq<Post>)
    ensures |r| == |ps|
    ensures forall p :: p in r <==> p in ps
    ensures forall i, j :: 0 <= i < j < |r| ==> r[i] != r[j]
    ensures forall i, j :: 0 <= i < j < |r| ==> SortKey(r[j]) <= SortKey(r[i])
    decreases ps
  {
    if ps == {} then []
    else
      NewestExists(ps);
      var top :| top in ps && IsNewest(top, ps);
      [top] + SortNewestFirst(ps - {top})
  }

  /** `find_all_posts`: every joined post once, newest first; an empty
      join gives the empty list. */
  ghost function FindAllPosts(s: Store, fault: Fault): (r: Outcome<seq<Post>>)
    ensures r.Err? <==> Fails(fault, 0)
    ensures r.Err? ==> r.failure == StoreError
    ensures r.Ok? ==> |r.value| == |JoinedPosts(s)|
    ensures r.Ok? ==> forall p :: p in r.value <==> p in JoinedPosts(s)
    ensures r.Ok? ==> forall i, j :: 0 <= i < j < |r.value| ==> SortKey(r.value[j]) <= SortKey(r.value[i])
    ensures r.Ok? && JoinedPosts(s) == {} ==> r.value == []
  {
    if Fails(fault, 0) then Err(StoreError)
    else Ok(SortNewestFirst(JoinedPosts(s)))
  }

  /** `find_one_post`: a newest joined post, or the placeholder when there
      is none. */
  ghost function FindOnePost(s: Store, fault: Fault): (r: Outcome<Post>)
    ensures r.Err? <==> Fails(fault, 0)
    ensures r.Err? ==> r.failure == StoreError
    ensures r.Ok? && JoinedPosts(s) == {} ==> r.value == PlaceholderPost
    ensures r.Ok? && JoinedPosts(s) != {} ==> r.value in JoinedPosts(s) && IsNewest(r.value, JoinedPosts(s))
  {
    if Fails(fault, 0) then Err(StoreError)
    else if JoinedPosts(s) == {} then Ok(PlaceholderPost)
    else
      NewestExists(JoinedPosts(s));
      var top :| top in JoinedPosts(s) && IsNewest(top, JoinedPosts(s));
      Ok(top)
  }

  /** `find_post_by_id`: the joined row of that post, or `NotFound`. */
  ghost function FindPostById(s: Store, postId: PostId, fault: Fault): (r: Outcome<Post>)
    ensures Fails(fault, 0) <==> r == Err(StoreError)
    ensures r.Err? ==> r.failure in {StoreError, NotFound}
    ensures r == Err(NotFound) <==> !Fails(fault, 0) && forall l :: Joins(s, l) ==> l.postId != postId
    ensures r.Ok? ==> exists l :: Joins(s, l) && l.postId == postId && r.value == RowPost(s, l)
  {
    if Fails(fault, 0) then Err(StoreError)
    else if exists l :: Joins(s, l) && l.postId == postId then
      var l :| Joins(s, l) && l.postId == postId;
      Ok(RowPost(s, l))
    else Err(NotFound)
  }
}

=== FILE: post_properties.dfy ===
/** Properties that relate several post operations to each other: what a
    write makes the reads return, the store invariant every write keeps,
    and the consequences of the two-statement creation. */
module PostProperties {
  import opened Wrappers
  import opened Models
  import opened Database
  import opened PostController

  /** In a valid store, a successful creation leaves exactly one link for
      the new post id: the one to the acting user. */
  lemma OnlyLinkOfFreshPost(s: Store, post: Post, user: UserIdAndUsername, dbNow: nat, appNow: nat, fault: Fault)
    requires Valid(s)
    ensures var r := CreatePost(s, post, user, dbNow, appNow, fault);
            r.out.Ok? ==>
              && Link(s.nextPostId, user.userId) in r.store.postUser
              && forall m :: m in r.store.postUser && m.postId == s.nextPostId ==> m == Link(s.nextPostId, user.userId)
  {
  }

  /** In a valid store, the joined row of a post with an owner link to an
      existing user is what `FindPostById` answers. */
  lemma FindOwnedPost(s: Store, l: Link)
    requires OneOwnerPerPost(s)
    requires Joins(s, l)
    ensures FindPostById(s, l.postId, Healthy) == Ok(RowPost(s, l))
  {
  }

  /** Creating a post and reading it back by its new id gives the response
      of the creation, except that the stored `created_at` is the store's
      clock rather than the application's. */
  lemma CreateThenFindById(s: Store, post: Post, user: UserIdAndUsername, dbNow: nat, appNow: nat)
    requires Valid(s)
    requires user.userId in s.users && s.users[user.userId].username == user.username
    ensures var r := CreatePost(s, post, user, dbNow, appNow, Healthy);
            && r.out.Ok?
            && r.out.value.postId == Some(s.nextPostId)
            && FindPostById(r.store, s.nextPostId, Healthy) == Ok(r.out.value.(createdAt := Some(Stamp(dbNow))))
  {
  }

  /** After a successful update by the owner, reading the post by id shows
      the new title and content and the unchanged owner and timestamp. */
  lemma UpdateThenFindById(s: Store, postId: PostId, post: Post, user: UserIdAndUsername)
    requires Valid(s)
    requires user.userId in s.users
    requires UpdatePost(s, postId, post, user, Healthy).out.Ok?
    ensures FindPostById(UpdatePost(s, postId, post, user, Healthy).store, postId, Healthy)
            == Ok(Post(Some(postId), post.title, post.content, Some(user.userId),
                       Some(s.users[user.userId].username), Some(Stamp(s.posts[postId].createdAt))))
  {
  }

  /** After a successful delete the post can no longer be read, and a
      second delete by the same owner passes the gate (the link is still
      there) and fails with `NotFound`, changing nothing. */
  lemma DeleteThenDeleteAgain(s: Store, postId: PostId, user: UserIdAndUsername, post: Post)
    requires DeletePost(s, postId, user, Healthy).out.Ok?
    ensures var s' := DeletePost(s, postId, user, Healthy).store;
            && Link(postId, user.userId) in s'.postUser
            && FindPostById(s', postId, Healthy) == Err(NotFound)
            && DeletePost(s', postId, user, Healthy) == Step(Err(NotFound), s')
            && UpdatePost(s', postId, post, user, Healthy) == Step(Err(NotFound), s')
  {
  }

  /** An owner's write on a post id with no `posts` row finds nothing. */
  lemma MissingPostIsNotFound(s: Store, postId: PostId, post: Post, user: UserIdAndUsername)
    requires Link(postId, user.userId) in s.postUser && postId !in s.posts
    ensures UpdatePost(s, postId, post, user, Healthy) == Step(Err(NotFound), s)
    ensures DeletePost(s, postId, user, Healthy) == Step(Err(NotFound), s)
    ensures FindPostById(s, postId, Healthy) == Err(NotFound)
  {
  }

  /** The lifecycle of one post: created by its owner, refused to anyone
      else, edited by its owner, deleted by its owner, then gone. */
  lemma PostLifecycle(s: Store, owner: UserIdAndUsername, other: UserIdAndUsername,
                                         first: Post, second: Post, dbNow: nat, appNow: nat)
    requires Valid(s)
    requires owner.userId in s.users && s.users[owner.userId].username == owner.username
    requires other.userId != owner.userId
    ensures var c := CreatePost(s, first, owner, dbNow, appNow, Healthy);
            var id := s.nextPostId;
            var u := UpdatePost(c.store, id, second, owner, Healthy);
            var d := DeletePost(u.store, id, owner, Healthy);
            && c.out.Ok? && c.out.value.title == first.title && c.out.value.username == Some(owner.username)
            && UpdatePost(c.store, id, second, other, Healthy) == Step(Err(Forbidden), c.store)
            && DeletePost(c.store, id, other, Healthy) == Step(Err(Forbidden), c.store)
            && u.out == Ok(second)
            && d.out == Ok(PostDeleted)
            && FindPostById(d.store, id, Healthy) == Err(NotFound)
  {
  }

  /** Whoever has no ownership link gets 401 from an update or a delete,
      and the store stays as it was. */
  lemma NonOwnerGets401(s: Store, postId: PostId, post: Post, user: UserIdAndUsername)
    requires Link(postId, user.userId) !in s.postUser
    ensures var u := UpdatePost(s, postId, post, user, Healthy);
            u.store == s && u.out.Err? && StatusCode(u.out.failure) == 401
    ensures var d := DeletePost(s, postId, user, Healthy);
            d.store == s && d.out.Err? && StatusCode(d.out.failure) == 401
  {
  }

  /** A post id that no creation has handed out has no link, so even the
      acting user's update or delete of it is refused with 401, not 404. */
  lemma NeverCreatedPostIsForbidden(s: Store, postId: PostId, post: Post, user: UserIdAndUsername)
    requires Valid(s)
    requires postId >= s.nextPostId
    ensures UpdatePost(s, postId, post, user, Healthy) == Step(Err(Forbidden), s)
    ensures DeletePost(s, postId, user, Healthy) == Step(Err(Forbidden), s)
    ensures FindPostById(s, postId, Healthy) == Err(NotFound)
  {
  }

  /** Every outcome of `CreatePost` keeps the store invariant. */
  lemma CreatePostKeepsValid(s: Store, post: Post, user: UserIdAndUsername, dbNow: nat, appNow: nat, fault: Fault)
    requires Valid(s)
    ensures Valid(CreatePost(s, post, user, dbNow, appNow, fault).store)
  {
  }

  /** Every outcome of `UpdatePost` and `DeletePost` keeps the store invariant. */
  lemma WritesKeepValid(s: Store, postId: PostId, post: Post, user: UserIdAndUsername, fault: Fault)
    requires Valid(s)
    ensures Valid(UpdatePost(s, postId, post, user, fault).store)
    ensures Valid(DeletePost(s, postId, user, fault).store)
  {
  }

  /** When the link insert fails, the post row written by the first insert
      stays behind without an owner: no read can see it, and the next
      creation cannot reuse its id. */
  lemma CreateIsNotAtomic(s: Store, post: Post, user: UserIdAndUsername, dbNow: nat, appNow: nat)
    requires Valid(s)
    ensures var r := CreatePost(s, post, user, dbNow, appNow, FailAt(1));
            && r.out == Err(StoreError)
            && s.nextPostId in r.store.posts
            && (forall l :: l in r.store.postUser ==> l.postId != s.nextPostId)
            && JoinedPosts(r.store) == JoinedPosts(s)
            && FindPostById(r.store, s.nextPostId, Healthy) == Err(NotFound)
            && r.store.nextPostId == s.nextPostId + 1
  {
  }

  /** A creation refused because the serial lags behind a taken id still
      uses that value up, so the next creation draws the value after it. */
  lemma ConflictUsesUpPostId(s: Store, post: Post, user: UserIdAndUsername, dbNow: nat, appNow: nat)
    requires s.nextPostId in s.posts && s.nextPostId + 1 !in s.posts
    ensures var r1 := CreatePost(s, post, user, dbNow, appNow, Healthy);
            var r2 := CreatePost(r1.store, post, user, dbNow, appNow, Healthy);
            && r1.out == Err(StoreError)
            && r2.out.Ok?
            && r2.out.value.postId == Some(s.nextPostId + 1)
  {
  }

  /** When the joined posts carry pairwise distinct timestamps, the listing
      is strictly newest first. */
  lemma ListingStrictlyNewestFirst(s: Store)
    requires forall p, q :: p in JoinedPosts(s) && q in JoinedPosts(s) && p != q ==> SortKey(p) != SortKey(q)
    ensures var ps := FindAllPosts(s, Healthy).value;
            forall i, j :: 0 <= i < j < |ps| ==> SortKey(ps[j]) < SortKey(ps[i])
  {
  }

  /** The single post the front page shows is as new as the head of the
      full listing (the two queries may break a tie differently). */
  lemma OneIsAsNewAsFirstOfAll(s: Store)
    requires JoinedPosts(s) != {}
    ensures FindAllPosts(s, Healthy).value != []
    ensures SortKey(FindOnePost(s, Healthy).value) == SortKey(FindAllPosts(s, Healthy).value[0])
  {
  }
}

=== FILE: user_controller.dfy ===
/** The user controller (app/controllers/user_controller.py). None of its
    functions catches an exception, so any failing statement ends the call
    with a `StoreError` and leaves the store as far as it got.

    The routes that reach `FindUserByUsername`, `FindAllUsers` and
    `BanUserByUsername` require the "Admin" scope. */
module UserController {
  import opened Wrappers
  import opened Models
  import opened Database

  const UserCreated: Ack := Ack("User successfully created")
  const UserBanned: Ack := Ack("User successfully banned")

  /** What `FindAllUsers` puts in place of every password. */
  const RedactedPassword: string := "Placeholder"

  /** The role names `array_agg` collects for `userId` over
      `users JOIN user_roles JOIN roles`. A row whose role id is NULL or
      missing from the catalog joins nothing. The model aggregates in the
      order the rows were inserted. */
  function RoleNamesOf(rows: seq<UserRoleRow>, roles: map<RoleId, string>, userId: UserId): (names: seq<string>)
    ensures |names| <= |rows|
    ensures forall n :: n in names ==> n in roles.Values
    ensures forall n :: n in names <==>
              exists i :: 0 <= i < |rows| && JoinsRole(rows[i], roles, userId) && roles[rows[i].roleId.value] == n
    ensures names != [] <==> exists i :: 0 <= i < |rows| && JoinsRole(rows[i], roles, userId)
  {
    if rows == [] then []
    else
      var last := rows[|rows| - 1];
      var front := RoleNamesOf(rows[..|rows| - 1], roles, userId);
      if JoinsRole(last, roles, userId) then
        front + [roles[last.roleId.value]]
      else
        assert forall i :: 0 <= i < |rows| - 1 ==> rows[..|rows| - 1][i] == rows[i];
        front
  }

  predicate JoinsRole(row: UserRoleRow, roles: map<RoleId, string>, userId: UserId) {
    row.userId == userId && row.roleId.Some? && row.roleId.value in roles
  }

  /** The role names of user `userId` in store `s`. */
  function RolesOf(s: Store, userId: UserId): seq<string> {
    RoleNamesOf(s.userRoles, s.roles, userId)
  }

  /** A user appears in the grouped join only with at least one role. */
  ghost predicate Grouped(s: Store, userId: UserId) {
    userId in s.users && RolesOf(s, userId) != []
  }

  /** The `User` a grouped row turns into: `name` is the username. */
  function UserOf(s: Store, userId: UserId): User
    requires userId in s.users
  {
    var row := s.users[userId];
    User(row.username, row.password, row.email, Some(row.username), RolesOf(s, userId), row.disabled)
  }

  /** The selector of the two single-user lookups. */
  datatype UserKey = ByUsername(username: string) | ByEmail(email: string)

  predicate Selects(key: UserKey, row: UserRow) {
    match key
    case ByUsername(n) => row.username == n
    case ByEmail(e) => row.email == e
  }

  /** The shared query of `find_user_by_username` and `find_user_by_email`:
      the first grouped row the key selects, or `None`. */
  ghost function FindUser(s: Store, key: UserKey, fault: Fault): (r: Outcome<Option<User>>)
    ensures r.Err? <==> Fails(fault, 0)
    ensures r.Err? ==> r.failure == StoreError
    ensures r.Ok? ==> (r.value.None? <==> forall id :: Grouped(s, id) ==> !Selects(key, s.users[id]))
    ensures r.Ok? && r.value.Some? ==>
              exists id :: Grouped(s, id) && Selects(key, s.users[id]) && r.value.value == UserOf(s, id)
  {
    if Fails(fault, 0) then Err(StoreError)
    else if exists id :: Grouped(s, id) && Selects(key, s.users[id]) then
      var id :| Grouped(s, id) && Selects(key, s.users[id]);
      Ok(Some(UserOf(s, id)))
    else Ok(None)
  }

  /** `find_user_by_username`. */
  ghost function FindUserByUsername(s: Store, username: string, fault: Fault): (r: Outcome<Option<User>>)
    ensures r.Err? <==> Fails(fault, 0)
    ensures r.Err? ==> r.failure == StoreError
    ensures r.Ok? ==> (r.value.None? <==> forall id :: Grouped(s, id) ==> s.users[id].username != username)
    ensures r.Ok? && r.value.Some? ==>
              && r.value.value.username == username
              && r.value.value.name == Some(username)
              && r.value.value.roles != []
              && exists id :: Grouped(s, id) && s.users[id].username == username && r.value.value == UserOf(s, id)
  {
    FindUser(s, ByUsername(username), fault)
  }

  /** `find_user_by_email`. */
  ghost function FindUserByEmail(s: Store, email: string, fault: Fault): (r: Outcome<Option<User>>)
    ensures r.Err? <==> Fails(fault, 0)
    ensures r.Err? ==> r.failure == StoreError
    ensures r.Ok? ==> (r.value.None? <==> forall id :: Grouped(s, id) ==> s.users[id].email != email)
    ensures r.Ok? && r.value.Some? ==>
              && r.value.value.email == email
              && r.value.value.roles != []
              && exists id :: Grouped(s, id) && s.users[id].email == email && r.value.value == UserOf(s, id)
  {
    FindUser(s, ByEmail(email), fault)
  }

  /** The role id `SELECT role_id FROM roles WHERE role_name` yields, or
      NULL when the catalog has no such name. */
  ghost function RoleIdOf(roles: map<RoleId, string>, name: string): (r: Option<RoleId>)
    ensures r.Some? <==> name in roles.Values
    ensures r.Some? ==> r.value in roles && roles[r.value] == name
  {
    if exists id :: id in roles && roles[id] == name then
      var id :| id in roles && roles[id] == name;
      Some(id)
    else None
  }

  /** `get_role_id`. */
  ghost function GetRoleId(s: Store, name: string, fault: Fault): (r: Outcome<Option<RoleId>>)
    ensures r.Err? <==> Fails(fault, 0)
    ensures r.Err? ==> r.failure == StoreError
    ensures r.Ok? ==> (r.value.Some? <==> name in s.roles.Values)
    ensures r.Ok? && r.value.Some? ==> r.value.value in s.roles && s.roles[r.value.value] == name
  {
    if Fails(fault, 0) then Err(StoreError) else Ok(RoleIdOf(s.roles, name))
  }

  /** `get_user_id`: the id stored for `username` paired with the argument.
      With no such user the lookup yields NULL, which the `int` field of
      `UserIdAndUsername` rejects. */
  ghost function GetUserId(s: Store, username: string, fault: Fault): (r: Outcome<UserIdAndUsername>)
    ensures r.Err? <==> Fails(fault, 0) || forall id :: id in s.users ==> s.users[id].username != username
    ensures Fails(fault, 0) ==> r == Err(StoreError)
    ensures r.Err? && !Fails(fault, 0) ==> r.failure == ValidationError
    ensures r.Ok? ==> r.value.username == username && r.value.userId in s.users
                      && s.users[r.value.userId].username == username
  {
    if Fails(fault, 0) then Err(StoreError)
    else if exists id :: id in s.users && s.users[id].username == username then
      var id :| id in s.users && s.users[id].username == username;
      Ok(UserIdAndUsername(id, username))
    else Err(ValidationError)
  }

  /** The `user_roles` rows `create_user` inserts for `names`, one per name
      in list order. */
  ghost function RoleRows(roles: map<RoleId, string>, userId: UserId, names: seq<string>): (rows: seq<UserRoleRow>)
  {
    seq(|names|, i requires 0 <= i < |names| => UserRoleRow(userId, RoleIdOf(roles, names[i])))
  }

  /** Whether `fault` hits one of the `2 * n` statements starting at `first`. */
  predicate FaultWithin(fault: Fault, first: nat, n: nat) {
    fault.FailAt? && first <= fault.statement < first + 2 * n
  }

  /** How many of `n` role rows are inserted before `fault` stops the loop. */
  function RowsBeforeFault(fault: Fault, first: nat, n: nat): (k: nat)
    ensures k <= n
  {
    if FaultWithin(fault, first, n) then (fault.statement - first) / 2 else n
  }

  /** The role loop of `create_user`: for each name, statement `first` looks
      the role id up and statement `first + 1` inserts the row; the next
      name starts at `first + 2`. A failure leaves the rows inserted so far. */
  ghost function AssignRoles(s: Store, userId: UserId, names: seq<string>, first: nat, fault: Fault): (r: Step<()>)
    ensures r.out.Ok? <==> !FaultWithin(fault, first, |names|)
    ensures r.out.Err? ==> r.out.failure == StoreError
    ensures r.store == s.(userRoles := s.userRoles + RoleRows(s.roles, userId, names[..RowsBeforeFault(fault, first, |names|)]))
    decreases |names|
  {
    if names == [] then
      assert s.userRoles + [] == s.userRoles;
      Step(Ok(()), s)
    else if Fails(fault, first) then
      // get_role_id raised
      assert s.userRoles + [] == s.userRoles;
      Step(Err(StoreError), s)
    else
      var roleId := RoleIdOf(s.roles, names[0]);
      if Fails(fault, first + 1) then
        // the insert raised
        assert s.userRoles + [] == s.userRoles;
        Step(Err(StoreError), s)
      else
        var s1 := s.(userRoles := s.userRoles + [UserRoleRow(userId, roleId)]);
        var r := AssignRoles(s1, userId, names[1..], first + 2, fault);
        var k := RowsBeforeFault(fault, first, |names|);
        assert RowsBeforeFault(fault, first + 2, |names| - 1) == k - 1;
        assert [UserRoleRow(userId, roleId)] + RoleRows(s.roles, userId, names[1..][..k - 1])
            == RoleRows(s.roles, userId, names[..k]);
        r
  }

  ghost predicate UsernameTaken(s: Store, username: string) {
    exists id :: id in s.users && s.users[id].username == username
  }

  /** `create_user`: statement 0 inserts the user row (its id from the
      serial; a UNIQUE constraint on the username column is assumed), then
      the role loop runs from statement 1. Nothing is rolled back when a
      later statement fails. An insert refused for a taken id or username
      still uses up the serial value it drew. */
  ghost function CreateUser(s: Store, user: User, fault: Fault): (r: Step<Ack>)
    ensures Fails(fault, 0) ==> r == Step(Err(StoreError), s)
    ensures !Fails(fault, 0) && (s.nextUserId in s.users || UsernameTaken(s, user.username)) ==>
              r == Step(Err(StoreError), s.(nextUserId := s.nextUserId + 1))
    ensures r.out.Err? ==> r.out.failure == StoreError
    ensures r.out.Ok? ==> r.out.value == UserCreated
    ensures r.out.Ok? <==>
              && !Fails(fault, 0) && s.nextUserId !in s.users && !UsernameTaken(s, user.username)
              && !FaultWithin(fault, 1, |user.roles|)
    ensures !Fails(fault, 0) && s.nextUserId !in s.users && !UsernameTaken(s, user.username) ==>
              && r.store.users == s.users[s.nextUserId := UserRow(user.username, user.email, user.password, user.disabled)]
              && r.store.nextUserId == s.nextUserId + 1
              && r.store.userRoles == s.userRoles + RoleRows(s.roles, s.nextUserId, user.roles[..RowsBeforeFault(fault, 1, |user.roles|)])
    ensures r.store.posts == s.posts && r.store.postUser == s.postUser && r.store.roles == s.roles
    ensures r.store.nextPostId == s.nextPostId
    ensures r.out.Ok? ==> r.store.userRoles == s.userRoles + RoleRows(s.roles, s.nextUserId, user.roles)
  {
    if Fails(fault, 0) then Step(Err(StoreError), s)
    else if s.nextUserId in s.users || UsernameTaken(s, user.username) then
      Step(Err(StoreError), s.(nextUserId := s.nextUserId + 1))
    else
      var id := s.nextUserId;
      var s1 := s.(users := s.users[id := UserRow(user.username, user.email, user.password, user.disabled)],
                   nextUserId := id + 1);
      var a := AssignRoles(s1, id, user.roles, 1, fault);
      assert user.roles[..|user.roles|] == user.roles;
      match a.out
      case Err(f) => Step(Err(f), a.store)
      case Ok(_) => Step(Ok(UserCreated), a.store)
  }

  /** The ids of the users the grouped join of `find_all_users` yields. */
  ghost function GroupedUsers(s: Store): set<UserId> {
    set id | id in s.users && Grouped(s, id)
  }

  /** `find_all_users`'s row mapping: the query does not select the
      password, and the literal `RedactedPassword` stands in. */
  function Redacted(u: User): User {
    u.(password := RedactedPassword)
  }

  /** Some enumeration of a finite set, each element once. The query has
      no `ORDER BY`, so the order is left open. */
  ghost function Enumerate(xs: set<UserId>): (r: seq<UserId>)
    ensures |r| == |xs|
    ensures forall x :: x in r <==> x in xs
    decreases xs
  {
    if xs == {} then []
    else
      var x :| x in xs;
      [x] + Enumerate(xs - {x})
  }

  /** The redacted view of each user in `ids`, in the same order. */
  function RedactedViews(s: Store, ids: seq<UserId>): (users: seq<User>)
    requires forall i :: 0 <= i < |ids| ==> ids[i] in s.users
    ensures |users| == |ids|
    ensures forall i :: 0 <= i < |ids| ==> users[i] == Redacted(UserOf(s, ids[i]))
    ensures forall u :: u in users ==> u.password == RedactedPassword
  {
    seq(|ids|, i requires 0 <= i < |ids| => Redacted(UserOf(s, ids[i])))
  }

  /** Every user of `xs` has its redacted view in the listing of an
      enumeration of `xs`. */
  lemma RedactedViewsComplete(s: Store, xs: set<UserId>)
    requires forall x :: x in xs ==> x in s.users
    ensures forall id :: id in xs ==> Redacted(UserOf(s, id)) in RedactedViews(s, Enumerate(xs))
  {
    var ids := Enumerate(xs);
    forall id | id in xs
      ensures Redacted(UserOf(s, id)) in RedactedViews(s, ids)
    {
      var i :| 0 <= i < |ids| && ids[i] == id;
      assert RedactedViews(s, ids)[i] == Redacted(UserOf(s, id));
    }
  }

  /** Every entry of the listing of an enumeration of `xs` is the redacted
      view of a user of `xs`. */
  lemma RedactedViewsSound(s: Store, xs: set<UserId>)
    requires forall x :: x in xs ==> x in s.users
    ensures var users := RedactedViews(s, Enumerate(xs));
            forall i :: 0 <= i < |users| ==> exists id :: id in xs && users[i] == Redacted(UserOf(s, id))
  {
    var ids := Enumerate(xs);
    forall i | 0 <= i < |ids|
      ensures exists id :: id in xs && RedactedViews(s, ids)[i] == Redacted(UserOf(s, id))
    {
      assert ids[i] in xs;
    }
  }

  /** `find_all_users`: one redacted `User` per grouped user. */
  ghost function FindAllUsers(s: Store, fault: Fault): (r: Outcome<seq<User>>)
    ensures r.Err? <==> Fails(fault, 0)
    ensures r.Err? ==> r.failure == StoreError
    ensures r.Ok? ==> |r.value| == |GroupedUsers(s)|
    ensures r.Ok? ==> forall u :: u in r.value ==> u.password == RedactedPassword
    ensures r.Ok? ==> forall id :: id in GroupedUsers(s) ==> Redacted(UserOf(s, id)) in r.value
    ensures r.Ok? ==> forall i :: 0 <= i < |r.value| ==>
              exists id :: id in GroupedUsers(s) && r.value[i] == Redacted(UserOf(s, id))
  {
    if Fails(fault, 0) then Err(StoreError)
    else
      RedactedViewsComplete(s, GroupedUsers(s));
      RedactedViewsSound(s, GroupedUsers(s));
      Ok(RedactedViews(s, Enumerate(GroupedUsers(s))))
  }

  /** `ban_user_by_username`: sets `disabled` on every user with that
      username and answers with the success message whether or not any
      user matched. */
  function BanUserByUsername(s: Store, username: string, fault: Fault): (r: Step<Ack>)
    ensures r.out.Err? <==> Fails(fault, 0)
    ensures r.out.Err? ==> r == Step(Err(StoreError), s)
    ensures r.out.Ok? ==> r.out.value == UserBanned
    ensures r.store == s.(users := r.store.users)
    ensures r.store.users.Keys == s.users.Keys
    ensures r.out.Ok? ==> forall id :: id in s.users && s.users[id].username == username ==>
              r.store.users[id] == s.users[id].(disabled := Some(true))
    ensures forall id :: id in s.users && s.users[id].username != username ==> r.store.users[id] == s.users[id]
  {
    if Fails(fault, 0) then Step(Err(StoreError), s)
    else
      var users := map id | id in s.users ::
        if s.users[id].username == username then s.users[id].(disabled := Some(true)) else s.users[id];
      Step(Ok(UserBanned), s.(users := users))
  }
}

=== FILE: user_properties.dfy ===
/** Properties that relate several user operations: what a created user
    looks like to the lookups, the effect of the inner join on users
    without roles, the ban's idempotence, and the redacted listing. */
module UserProperties {
  import opened Wrappers
  import opened Models
  import opened Database
  import opened UserController

  /** The names of `names` the role catalog holds, each as often as it is
      requested: the roles a lookup reports after `CreateUser`, the others
      being dropped without an error. */
  function Resolvable(roles: map<RoleId, string>, names: seq<string>): (r: seq<string>)
    ensures forall n :: n in r <==> n in names && n in roles.Values
    ensures forall n :: multiset(r)[n] == if n in roles.Values then multiset(names)[n] else 0
  {
    if names == [] then []
    else
      var front := Resolvable(roles, names[..|names| - 1]);
      var last := names[|names| - 1];
      assert names == names[..|names| - 1] + [last];
      if last in roles.Values then front + [last] else front
  }

  /** Aggregation distributes over appending rows to the table. */
  lemma {:induction false} RoleNamesAppend(a: seq<UserRoleRow>, b: seq<UserRoleRow>, roles: map<RoleId, string>, userId: UserId)
    ensures RoleNamesOf(a + b, roles, userId) == RoleNamesOf(a, roles, userId) + RoleNamesOf(b, roles, userId)
    decreases |b|
  {
    if b == [] {
      assert a + b == a;
    } else {
      var b' := b[..|b| - 1];
      assert (a + b)[..|a + b| - 1] == a + b';
      RoleNamesAppend(a, b', roles, userId);
    }
  }

  /** `a` and `b` agree on every field, and hold the same role names with
      the same multiplicities. `array_agg` without `ORDER BY` promises no
      order, so this is all two queries can be expected to agree on. */
  predicate SameUpToRoleOrder(a: User, b: User) {
    a.(roles := []) == b.(roles := []) && multiset(a.roles) == multiset(b.roles)
  }

  /** The rows `create_user` inserts aggregate back to the resolvable
      names, each as often as it was requested. */
  lemma {:induction false} RoleRowsAggregate(roles: map<RoleId, string>, userId: UserId, names: seq<string>)
    ensures multiset(RoleNamesOf(RoleRows(roles, userId, names), roles, userId)) == multiset(Resolvable(roles, names))
    decreases |names|
  {
    if names != [] {
      var front := names[..|names| - 1];
      var rows := RoleRows(roles, userId, names);
      assert rows[..|rows| - 1] == RoleRows(roles, userId, front);
      RoleRowsAggregate(roles, userId, front);
    }
  }

  /** A user id at or above the serial has no role rows in a valid store. */
  lemma FreshUserHasNoRoles(s: Store)
    requires Valid(s)
    ensures RolesOf(s, s.nextUserId) == []
  {
  }

  /** Appending role rows of other users leaves a user's roles as they
      were. */
  lemma OtherRowsAddNoRoles(a: seq<UserRoleRow>, b: seq<UserRoleRow>, roles: map<RoleId, string>, userId: UserId)
    requires forall i :: 0 <= i < |b| ==> b[i].userId != userId
    ensures multiset(RoleNamesOf(a + b, roles, userId)) == multiset(RoleNamesOf(a, roles, userId))
  {
    RoleNamesAppend(a, b, roles, userId);
    assert RoleNamesOf(b, roles, userId) == [];
    assert RoleNamesOf(a, roles, userId) + [] == RoleNamesOf(a, roles, userId);
  }

  /** The roles of the user `CreateUser` just inserted are the resolvable
      names of its request; everything else reads as before. */
  lemma CreatedRoles(s: Store, user: User)
    requires Valid(s)
    requires !UsernameTaken(s, user.username)
    ensures var s' := CreateUser(s, user, Healthy).store;
            && multiset(RolesOf(s', s.nextUserId)) == multiset(Resolvable(s.roles, user.roles))
            && forall id :: id != s.nextUserId ==> multiset(RolesOf(s', id)) == multiset(RolesOf(s, id))
  {
    CreateUserSucceeds(s, user);
    var rows := RoleRows(s.roles, s.nextUserId, user.roles);
    RoleNamesAppend(s.userRoles, rows, s.roles, s.nextUserId);
    FreshUserHasNoRoles(s);
    RoleRowsAggregate(s.roles, s.nextUserId, user.roles);
    forall id | id != s.nextUserId
      ensures multiset(RolesOf(Inserted(s, user), id)) == multiset(RolesOf(s, id))
    {
      OtherRowsAddNoRoles(s.userRoles, rows, s.roles, id);
    }
  }

  /** Every outcome of `CreateUser` keeps the store invariant. */
  lemma CreateUserKeepsValid(s: Store, user: User, fault: Fault)
    requires Valid(s)
    ensures Valid(CreateUser(s, user, fault).store)
  {
  }

  /** The store a healthy `CreateUser` leaves behind. */
  ghost function Inserted(s: Store, user: User): Store {
    s.(users := s.users[s.nextUserId := UserRow(user.username, user.email, user.password, user.disabled)],
       nextUserId := s.nextUserId + 1,
       userRoles := s.userRoles + RoleRows(s.roles, s.nextUserId, user.roles))
  }

  /** In a valid store, a request for a free username succeeds and leaves
      `Inserted(s, user)`, which is valid again. */
  lemma CreateUserSucceeds(s: Store, user: User)
    requires Valid(s)
    requires !UsernameTaken(s, user.username)
    ensures CreateUser(s, user, Healthy) == Step(Ok(UserCreated), Inserted(s, user))
    ensures Valid(Inserted(s, user))
    ensures Inserted(s, user).users[s.nextUserId].username == user.username
  {
    CreateUserKeepsValid(s, user, Healthy);
  }

  /** In a valid store, a lookup by username finds the one user holding it. */
  lemma FindUniqueUsername(s: Store, id: UserId)
    requires UniqueUsernames(s)
    requires Grouped(s, id)
    ensures FindUserByUsername(s, s.users[id].username, Healthy) == Ok(Some(UserOf(s, id)))
  {
  }

  /** A created user with at least one role the catalog holds is in the
      grouped join. */
  lemma CreatedIsGrouped(s: Store, user: User)
    requires Valid(s)
    requires !UsernameTaken(s, user.username)
    requires exists n :: n in user.roles && n in s.roles.Values
    ensures Grouped(Inserted(s, user), s.nextUserId)
  {
    CreateUserSucceeds(s, user);
    CreatedRoles(s, user);
    var n :| n in user.roles && n in s.roles.Values;
    assert n in Resolvable(s.roles, user.roles);
    assert n in multiset(RolesOf(Inserted(s, user), s.nextUserId));
  }

  /** Creating a user with at least one role the catalog holds, then
      looking the username up, gives back the request's fields with the
      resolvable roles and `name` set to the username. */
  lemma CreateThenFindByUsername(s: Store, user: User)
    requires Valid(s)
    requires !UsernameTaken(s, user.username)
    requires exists n :: n in user.roles && n in s.roles.Values
    ensures var r := CreateUser(s, user, Healthy);
            && r.out == Ok(UserCreated)
            && FindUserByUsername(r.store, user.username, Healthy).Ok?
            && FindUserByUsername(r.store, user.username, Healthy).value.Some?
            && SameUpToRoleOrder(FindUserByUsername(r.store, user.username, Healthy).value.value,
                                 User(user.username, user.password, user.email, Some(user.username),
                                      Resolvable(s.roles, user.roles), user.disabled))
            && GetUserId(r.store, user.username, Healthy) == Ok(UserIdAndUsername(s.nextUserId, user.username))
  {
    CreateUserSucceeds(s, user);
    CreatedRoles(s, user);
    CreatedIsGrouped(s, user);
    FindUniqueUsername(Inserted(s, user), s.nextUserId);
  }

  /** With unique usernames, a user with a role whose email no other such
      user shares is found the same by email and by username. */
  lemma EmailLookupAgreesWithUsername(s: Store, id: UserId)
    requires UniqueUsernames(s)
    requires Grouped(s, id)
    requires forall other :: Grouped(s, other) && s.users[other].email == s.users[id].email ==> other == id
    ensures FindUserByEmail(s, s.users[id].email, Healthy) == Ok(Some(UserOf(s, id)))
    ensures FindUserByEmail(s, s.users[id].email, Healthy) == FindUserByUsername(s, s.users[id].username, Healthy)
  {
    FindUniqueUsername(s, id);
  }

  /** Creating a user with a fresh email and at least one known role, then
      looking the email up, finds the same user as the username lookup. */
  lemma CreateThenFindByEmail(s: Store, user: User)
    requires Valid(s)
    requires !UsernameTaken(s, user.username)
    requires forall id :: id in s.users ==> s.users[id].email != user.email
    requires exists n :: n in user.roles && n in s.roles.Values
    ensures var r := CreateUser(s, user, Healthy);
            && FindUserByEmail(r.store, user.email, Healthy).Ok?
            && FindUserByEmail(r.store, user.email, Healthy).value.Some?
            && FindUserByEmail(r.store, user.email, Healthy) == FindUserByUsername(r.store, user.username, Healthy)
  {
    CreateUserSucceeds(s, user);
    CreatedIsGrouped(s, user);
    var s' := Inserted(s, user);
    forall other | Grouped(s', other) && s'.users[other].email == user.email
      ensures other == s.nextUserId
    {
    }
    EmailLookupAgreesWithUsername(s', s.nextUserId);
  }

  /** A user none of whose requested roles is in the catalog is stored,
      but the inner join hides it from the lookup, which answers `None`. */
  lemma CreateWithoutKnownRoleIsInvisible(s: Store, user: User)
    requires Valid(s)
    requires !UsernameTaken(s, user.username)
    requires forall n :: n in user.roles ==> n !in s.roles.Values
    ensures var r := CreateUser(s, user, Healthy);
            && r.out == Ok(UserCreated)
            && s.nextUserId in r.store.users
            && GetUserId(r.store, user.username, Healthy) == Ok(UserIdAndUsername(s.nextUserId, user.username))
            && FindUserByUsername(r.store, user.username, Healthy) == Ok(None)
  {
    CreateUserSucceeds(s, user);
  }

  /** When the role loop fails, the user row inserted before it stays:
      `get_user_id` finds the new id, exactly the role rows of the names
      before the failing statement are there, and a retry of the same
      request is refused by the username constraint. */
  lemma CreateUserIsNotAtomic(s: Store, user: User, k: nat)
    requires Valid(s)
    requires !UsernameTaken(s, user.username)
    requires 1 <= k < 1 + 2 * |user.roles|
    ensures var r := CreateUser(s, user, FailAt(k));
            && r.out == Err(StoreError)
            && r.store.users == s.users[s.nextUserId := UserRow(user.username, user.email, user.password, user.disabled)]
            && r.store.userRoles == s.userRoles + RoleRows(s.roles, s.nextUserId, user.roles[..(k - 1) / 2])
            && GetUserId(r.store, user.username, Healthy) == Ok(UserIdAndUsername(s.nextUserId, user.username))
            && CreateUser(r.store, user, Healthy) == Step(Err(StoreError), r.store.(nextUserId := r.store.nextUserId + 1))
  {
    var r := CreateUser(s, user, FailAt(k));
    CreateUserKeepsValid(s, user, FailAt(k));
    assert s.nextUserId in r.store.users && r.store.users[s.nextUserId].username == user.username;
  }

  /** A creation refused for a taken username still uses up its serial
      value: the next successful creation gets the id after it. */
  lemma ConflictUsesUpUserId(s: Store, taken: User, newcomer: User)
    requires Valid(s)
    requires UsernameTaken(s, taken.username)
    requires !UsernameTaken(s, newcomer.username)
    ensures var r1 := CreateUser(s, taken, Healthy);
            var r2 := CreateUser(r1.store, newcomer, Healthy);
            && r1.out == Err(StoreError)
            && r2.out == Ok(UserCreated)
            && GetUserId(r2.store, newcomer.username, Healthy) == Ok(UserIdAndUsername(s.nextUserId + 1, newcomer.username))
  {
    var s1 := s.(nextUserId := s.nextUserId + 1);
    assert CreateUser(s, taken, Healthy) == Step(Err(StoreError), s1);
    assert !UsernameTaken(s1, newcomer.username);
    var r2 := CreateUser(s1, newcomer, Healthy);
    CreateUserKeepsValid(s1, newcomer, Healthy);
    assert s1.nextUserId in r2.store.users && r2.store.users[s1.nextUserId].username == newcomer.username;
  }

  /** Banning twice is banning once: the second call succeeds and changes
      nothing. */
  lemma BanIsIdempotent(s: Store, username: string)
    ensures var once := BanUserByUsername(s, username, Healthy).store;
            BanUserByUsername(once, username, Healthy) == Step(Ok(UserBanned), once)
  {
  }

  /** With no user of that name the ban still reports success and the
      store stays as it was. */
  lemma BanWithoutMatchChangesNothing(s: Store, username: string)
    requires forall id :: id in s.users ==> s.users[id].username != username
    ensures BanUserByUsername(s, username, Healthy) == Step(Ok(UserBanned), s)
  {
  }

  /** After a ban, the lookup of that user reports it disabled and
      otherwise unchanged. */
  lemma BanThenFindByUsername(s: Store, username: string, u: User)
    requires Valid(s)
    requires FindUserByUsername(s, username, Healthy) == Ok(Some(u))
    ensures var r := FindUserByUsername(BanUserByUsername(s, username, Healthy).store, username, Healthy);
            r.Ok? && r.value.Some? && SameUpToRoleOrder(r.value.value, u.(disabled := Some(true)))
  {
    var id :| Grouped(s, id) && s.users[id].username == username && u == UserOf(s, id);
    var s' := BanUserByUsername(s, username, Healthy).store;
    BanKeepsValid(s, username, Healthy);
    assert RolesOf(s', id) == RolesOf(s, id);
    assert Grouped(s', id) && s'.users[id].username == username;
    FindUniqueUsername(s', id);
    assert UserOf(s', id) == u.(disabled := Some(true));
  }

  /** A ban keeps the store invariant. */
  lemma BanKeepsValid(s: Store, username: string, fault: Fault)
    requires Valid(s)
    ensures Valid(BanUserByUsername(s, username, fault).store)
  {
  }

  /** Every user in the listing is what the single lookup of its username
      answers, with the password replaced. */
  lemma ListingIsRedactedLookup(s: Store)
    requires Valid(s)
    ensures var list := FindAllUsers(s, Healthy).value;
            forall i :: 0 <= i < |list| ==>
              && FindUserByUsername(s, list[i].username, Healthy).Ok?
              && FindUserByUsername(s, list[i].username, Healthy).value.Some?
              && SameUpToRoleOrder(Redacted(FindUserByUsername(s, list[i].username, Healthy).value.value), list[i])
  {
  }
}

=== FILE: wrappers.dfy ===
/** The optional-value datatype used for the nullable columns and the
    defaulted model fields of the service. */
module Wrappers {

  /** `None` stands for SQL NULL or a field left at its `None` default. */
  datatype Option<+T> = None | Some(value: T)
}
